=== FILE: README.md ===
# ACME Order reconciliation, modelled in Dafny

This project models the Order controller of cert-manager
(`pkg/controller/acmeorders/sync.go`): the logic that, for one ACME Order,
decides what to do next and computes the Order's next status, following the
order lifecycle of RFC 8555 (order objects and statuses in sections 7.1.3 and
7.1.6, the authorization `wildcard` field in section 7.1.4, finalization in
section 7.4, the http-01 and dns-01 challenges in sections 8.3 and 8.4).

Everything is a pure function over immutable datatypes. Every answer the
controller would get from outside is an input: the issuer lookup and ACME
client construction (each a `Result`), the ACME server's responses (the
`AcmeClient` record of response functions), the Challenge lister's result and
the outcome of each create and update (`ChallengeStore`), the current time and
the two state classifiers (`Env`). One reconciliation returns a `Step`: the new
Order status, the list of external calls made (create-order, get-authorization,
finalize, get-order, create-challenge, update-order) and the error returned.

Modules, leaves first:

- `Wrappers` (`wrappers.dfy`): `Option` and `Result`.
- `Api` (`api.dfy`): Orders, Challenges, issuers, solver configuration, states.
- `Acme` (`acme.dfy`): ACME orders, authorizations and challenges; the client,
  store and environment inputs.
- `Effects` (`effects.dfy`): errors, external calls, `Step`.
- `Strings` (`strings.dfy`): Go's string order, sorted duplicate-free
  listing, decimal rendering.
- `Solver` (`solver.dfy`): solver-configuration lookup, challenge selection,
  proof value, ChallengeSpec construction.
- `StatusSync` (`status.dfy`): status projection and synchronization.
- `OrderCreator` (`creator.dfy`): identifier set and order creation.
- `ChallengeReconciler` (`reconciler.dfy`): which Challenges to create, their
  names and labels, the creation pass, and the decision to poll.
- `OrderSync` (`sync.dfy`): top-level dispatch and the deferred status write.

Points where the code's behaviour may be unexpected, modelled as the code has it:

- The issuer lookup and the ACME client construction come before every other
  step. A failure there is returned even for an Order in a final state, which
  otherwise is left alone without error. `OrderSync.FinalOrderIsFixpoint`
  assumes both lookups succeed.
- When a Challenge creation fails, the aggregated error is returned before the
  readiness scan. Challenges created successfully in the same pass play no part
  in deciding whether to poll.
- When an authorization fetch or a challenge-spec build fails after the server
  created the order, `Status.Challenges` is left as it was (empty for a new
  Order), while the URL, state and URLs are already set from the server's order.
  When the create-order call itself fails, the status is left entirely unchanged.
- A failed status write is reported only when the reconciliation had already
  failed; a failed write after a successful reconciliation is lost. See
  Findings.

## Model

| member | source | states |
|---|---|---|
| Solver.FirstMatchingConfig | pkg/controller/acmeorders/sync.go:297-304 | the index found is the first configuration entry whose domains contain the key; none is found exactly when no entry contains it |
| Solver.SolverConfigurationForAuthorization | pkg/controller/acmeorders/sync.go:292-306 | the lookup key is the identifier, `*.`-prefixed for a wildcard; the result is the solver config of the first entry listing the key; with no such entry the result is ConfigurationNotFound for that key |
| Solver.WildcardNeedsPrefixedPattern | pkg/controller/acmeorders/sync.go:293-296 | a wildcard authorization is not matched by a bare domain entry: without an entry listing `*.<identifier>` the lookup fails |
| Solver.SelectChallenge | pkg/controller/acmeorders/sync.go:246-254 | the chosen challenge is acceptable (http-01 or dns-01, enabled in the solver config and on the issuer) and no later offer is acceptable; nothing is chosen exactly when no offer is acceptable |
| Solver.LaterOfferWins | pkg/controller/acmeorders/sync.go:246-254 | with offers [dns-01, http-01] both enabled everywhere, the spec built uses http-01 and its token |
| Solver.KeyForChallenge | pkg/controller/acmeorders/sync.go:279-290 | the key is the HTTP-01 response for http-01 and the DNS-01 record for dns-01, failing with that computation's error wrapped as AcmeCallFailed when it fails; any other type is UnsupportedChallengeType |
| Solver.ChallengeSpecForAuthorization | pkg/controller/acmeorders/sync.go:235-277 | the result is a spec exactly when a config is found, the issuer is ACME, some offer is acceptable and the selected offer's key computes; errors in source order: ConfigurationNotFound, NotAcmeIssuer, NoAcceptableChallenge, then the key computation's error; the spec carries the authz URL, the last acceptable challenge's type/URL/token and its key, the identifier as DNS name, the matched config, the wildcard flag and the issuer ref |
| Strings.SortedSet | pkg/controller/acmeorders/sync.go:201-206 | the listing is strictly sorted in Go's string order and holds exactly the input's elements |
| Strings.SortedListingUnique | pkg/controller/acmeorders/sync.go:206 | two strictly sorted listings with the same elements are equal, so the sorted duplicate-free listing of a set is unique |
| Strings.DecimalRoundTrip | pkg/controller/acmeorders/sync.go:330 | reading back the decimal rendering of an index gives the index |
| OrderCreator.IdentifierSet | pkg/controller/acmeorders/sync.go:201-206 | the identifiers are strictly sorted and are exactly the DNS names plus the common name when it is non-empty |
| OrderCreator.IdentifierSetCanonical | pkg/controller/acmeorders/sync.go:201-206 | any strictly sorted listing of the DNS names and the non-empty common name equals the identifier list, so duplicates and input order do not matter |
| OrderCreator.AuthorizationSpec | pkg/controller/acmeorders/sync.go:218-226 | a failed fetch returns the client error as AcmeCallFailed; otherwise the result is a spec exactly when the spec builder succeeds on the fetched authorization, with the same spec, and the builder's error is wrapped as ChallengeSpecFailed |
| OrderCreator.ChallengeSpecs | pkg/controller/acmeorders/sync.go:214-229 | authorizations are fetched in order and the walk stops at the first failure, which is returned; on success there is exactly one spec per authorization, in the same order, each the one built from that authorization |
| OrderCreator.CreateOrder | pkg/controller/acmeorders/sync.go:196-233 | an existing order URL is refused with no call and no change; otherwise one create-order call with the identifier set; a create failure changes nothing and returns CreateOrderFailed; after creation the rest is `PlanFromAcmeOrder` on the server's order |
| OrderCreator.PlanFromAcmeOrder | pkg/controller/acmeorders/sync.go:212-232 | the server's order is projected; create-order is followed by get-authorization calls for the authorization URLs in order; on success there is one per authorization and the planned challenges become one spec per authorization, in order; on failure the walk stopped at the first failing authorization: every earlier one succeeded, the failing one's error is returned, and the planned challenges are unchanged |
| StatusSync.SetOrderState | pkg/controller/acmeorders/sync.go:376-383 | the state is set; a failure state stamps the failure time with now on every call, any other state leaves it; nothing else changes |
| StatusSync.SetOrderStatus | pkg/controller/acmeorders/sync.go:342-350 | the server status becomes the state verbatim, URL, finalize URL and certificate URL are copied, the planned challenges are kept, and the failure-time rule applies |
| StatusSync.FailureTimeRefreshed | pkg/controller/acmeorders/sync.go:379-382 | projecting a failed order twice at times t1 and t2 leaves t2: the failure time is not set once |
| StatusSync.SetOrderStatusIdempotent | pkg/controller/acmeorders/sync.go:342-350 | projecting the same server order twice at the same time equals projecting it once |
| StatusSync.SyncOrderStatus | pkg/controller/acmeorders/sync.go:311-325 | an empty URL is refused with no call and no change; otherwise one get-order call; a failed fetch changes nothing and returns the client error; a successful one projects the order |
| StatusSync.SyncOrderStatusIdempotent | pkg/controller/acmeorders/sync.go:311-325 | synchronizing twice against an unchanged server that reports the order under its own URL gives the same status as once |
| StatusSync.SetOrderStatusTimeIndependent | pkg/controller/acmeorders/sync.go:376-383 | a projection onto a non-failure state is the same at any two times; only a failure state reads the clock |
| StatusSync.SyncOrderStatusStableAcrossTimes | pkg/controller/acmeorders/sync.go:311-325 | re-synchronizing at any later time against an unchanged server reporting a non-failure state under the order's URL leaves the status as the first synchronization made it |
| ChallengeReconciler.CreatablePrefix | pkg/controller/acmeorders/sync.go:127-142 | the scan covers planned specs without an existing Challenge of the same DNS name and stops at the first one that has one |
| ChallengeReconciler.SpecsToCreate | pkg/controller/acmeorders/sync.go:127-142 | index i is chosen exactly when no planned spec at or before i has an existing Challenge; with no existing Challenges every index is chosen |
| ChallengeReconciler.NothingExistingPlansAll | pkg/controller/acmeorders/sync.go:127-142 | with no existing Challenges the scan covers every planned spec |
| ChallengeReconciler.ChallengeLabelsForOrder | pkg/controller/acmeorders/sync.go:352-356 | an Order's Challenges carry exactly one label, the order-name key, whose value is the Order's name |
| ChallengeReconciler.BuildChallenge | pkg/controller/acmeorders/sync.go:327-338 | the Challenge is named `<order>-<i>` with `i` in decimal without leading zeros, carries only the order-name label with the Order's name, is controlled by the Order, and holds the planned spec unchanged |
| ChallengeReconciler.ChallengeNamesDistinct | pkg/controller/acmeorders/sync.go:330 | Challenges built for different indices of one Order have different names |
| ChallengeReconciler.CreateChallenges | pkg/controller/acmeorders/sync.go:146-162 | every creation is attempted, one create call per Challenge; the errors are exactly the failing creations' errors, each occurring as many times as creations failed with it; the Challenges kept are exactly the successfully created ones |
| ChallengeReconciler.ScanReadiness | pkg/controller/acmeorders/sync.go:165-174 | `recheck` holds exactly when no Challenge is pending or processing; `anyFailed` exactly when some Challenge is failed or expired |
| ChallengeReconciler.ShouldPoll | pkg/controller/acmeorders/sync.go:176-181 | the server is polled exactly when no Challenge is pending or processing, or some Challenge is failed or expired |
| ChallengeReconciler.ShouldPollOrderIndependent | pkg/controller/acmeorders/sync.go:147-174 | the poll decision is the same for any ordering of the same Challenges, so the unspecified creation order does not affect it |
| ChallengeReconciler.ReconcileChallenges | pkg/controller/acmeorders/sync.go:115-189 | a list failure is returned with no call; the chosen Challenges are created first, then a get-order call only when polling; any creation failure returns the aggregated errors with the status unchanged; with no failure the status is synchronized exactly when the poll decision says so |
| ChallengeReconciler.NothingExistingCreatesAll | pkg/controller/acmeorders/sync.go:127-157 | with no existing Challenges, one create call is made per planned spec, for `<order>-0`, `<order>-1`, ... in order |
| ChallengeReconciler.SecondPassCreatesNothing | pkg/controller/acmeorders/sync.go:127-157 | after a pass whose creations all succeeded, planning again over the enlarged Challenge list chooses nothing, so no Challenge is created twice |
| OrderSync.FinalizeAndSync | pkg/controller/acmeorders/sync.go:92-103 | one finalize call then one get-order call; a failed poll is returned in preference to a failed finalize; the result is a success exactly when both succeeded |
| OrderSync.Sync | pkg/controller/acmeorders/sync.go:52-113 | issuer then client lookup failures are returned (as IssuerNotFound with the issuer's name, then ClientUnavailable), with the status unchanged; an empty URL runs only order creation; a final state is a no-op success; Unknown synchronizes and always returns an error, the synchronization's own error when it failed and a retry error otherwise; Ready finalizes and synchronizes; Pending and Processing reconcile Challenges; any other state is UnrecognizedState; with a URL, no order is ever created again and the planned challenges never change |
| OrderSync.UncreatedOrderOnlyCreates | pkg/controller/acmeorders/sync.go:62-69 | an Order without a URL makes one create-order call followed only by authorization fetches |
| OrderSync.FinalOrderIsFixpoint | pkg/controller/acmeorders/sync.go:71-75 | a full reconciliation of a final Order, with either write-back, makes no call, changes nothing and succeeds |
| OrderSync.ReadyErrorPrecedence | pkg/controller/acmeorders/sync.go:92-103 | in Ready, finalize precedes the poll; a failed poll yields the status-sync error, otherwise a failed finalize yields the finalize error |
| OrderSync.PersistAsWritten | pkg/controller/acmeorders/sync.go:36-45 | the status is written exactly when it changed, as the last call; when it changed and the reconciliation failed, the result aggregates the reconciliation error with the write error, if any; the result is an error exactly when the reconciliation returned one |
| OrderSync.UpdateFailureSwallowed | pkg/controller/acmeorders/sync.go:42-44 | a successful reconciliation whose status write fails is still reported as a success |
| OrderSync.Persist | pkg/controller/acmeorders/sync.go:36-45 | the status is written exactly when it changed; the result is a success exactly when the reconciliation succeeded and no write failed; a failed write after a successful reconciliation is reported; it agrees with the source whenever the reconciliation had failed |
| OrderSync.Reconcile | pkg/controller/acmeorders/sync.go:32-45 | a full reconciliation with the corrected write-back: the status is Sync's, the calls are Sync's followed by one update call exactly when the status changed, and it succeeds exactly when Sync succeeded and no write failed; an unchanged status returns Sync's error, a changed one returns Sync's error aggregated with any write error, and a failed write after a successful Sync is returned as an aggregate of that write error alone |
| OrderSync.ReconcileAsWritten | pkg/controller/acmeorders/sync.go:32-45 | a full reconciliation with the write-back as the source has it: the status is Sync's, the calls are Sync's followed by one update call exactly when the status changed, and it succeeds exactly when Sync succeeded; an unchanged status returns Sync's error, and a changed one with Sync failed returns Sync's error aggregated with any write error |
| OrderSync.ReconcileVariantsAgreeOnEffects | pkg/controller/acmeorders/sync.go:36-45 | the corrected and the as-written reconciliation make the same calls and leave the same status |
| OrderSync.ReconcileWritesIffChanged | pkg/controller/acmeorders/sync.go:36-41 | a full reconciliation, with either write-back, issues an update call exactly when the status changed, and that write is the last call made and the only update call |

## Left out

- Issuer lookup and ACME client construction (sync.go:47-60) are inputs that may fail; the issuer and account machinery behind them is not modelled.
- The label selector and the lister call (sync.go:115-125, 358-371) are one input, the list result. A selector that cannot be built (an Order name that is not a valid label value) is folded into a list failure.
- The `Create` and `Update` API calls are input functions giving each call's error. The Challenge a successful create adds to the list is the one built, with an empty state, not the copy the API server returns.
- Creation order: the source ranges over a Go map, so creations happen in an unspecified order and their errors are aggregated in that order. The model creates in ascending index order. The properties speak of the set of Challenges created; `ShouldPollOrderIndependent` shows that the poll decision does not depend on the order.
- `HTTP01ChallengeResponse` and `DNS01ChallengeRecord` (key authorization and TXT record computation) are uninterpreted client functions of the token.
- `acme.IsFinalState` and `acme.IsFailureState` are defined outside sync.go. They are uninterpreted predicates in `Env`.
- The values of the named states live in the API types file, which is not part of this model. The model uses `""` for Unknown, since the Unknown case handles an unset state (sync.go:78-80), and distinct lowercase strings for the others. Only their distinctness is used.
- `time.Now()` is the `now` field of `Env`; timestamps are integers, with no second-truncation of `metav1.Time`.
- Error messages are error constructors, not formatted text.
- The owner reference keeps kind, name, UID and the controller flag. It omits the API version and `blockOwnerDeletion`.
- Logging, context cancellation and the deep copy (the model has value semantics) are left out.
- pkg/issuer/acme/acme.go (issuer construction and `init`-time registration) is glue with no stated behaviour and is not modelled.
- `OrderSync.Reconcile` composes `Sync` with the corrected write `Persist` (see Findings); `OrderSync.ReconcileAsWritten` composes it with the write as the source has it.

## Findings

| source | as written | input that shows it | evidently intended | confidence | as-written member | corrected member |
|---|---|---|---|---|---|---|
| pkg/controller/acmeorders/sync.go:41-44 | the deferred write aggregates the update error only `if err != nil`, testing the reconciliation's error instead of `updateErr` | an Order whose order creation succeeds (status changed, `err` nil) while `Update` fails: `Sync` returns nil, the new ACME order URL is not persisted and no retry is requested | report a failed status write whether or not the reconciliation failed | medium, not executed | OrderSync.PersistAsWritten, OrderSync.UpdateFailureSwallowed | OrderSync.Persist |

=== FILE: acme.dfy ===
/** The ACME objects of RFC 8555 the controller consumes (orders of section
    7.1.3, authorizations of section 7.1.4, challenges of section 8) and the
    client and environment it is given. Every server response is an input. */
module Acme {
  import opened Wrappers
  import opened Api

  /** Challenge types of sections 8.3 and 8.4 of RFC 8555. */
  const Http01: string := "http-01"
  const Dns01: string := "dns-01"

  datatype AcmeChallenge = AcmeChallenge(challengeType: string, url: string, token: string)

  /** `identifier` is the identifier value; `wildcard` is the authorization's
      wildcard field. */
  datatype Authorization = Authorization(
    url: string,
    identifier: string,
    wildcard: bool,
    challenges: seq<AcmeChallenge>)

  /** `status` is the order status string the server reports (section 7.1.6 of
      RFC 8555). */
  datatype AcmeOrder = AcmeOrder(
    url: string,
    status: string,
    finalizeURL: string,
    certificateURL: string,
    authorizations: seq<string>)

  /** An error message returned by a remote call. */
  type ClientError = string

  /** The ACME client: each field is the server's (or the key material's)
      answer to one kind of call. The proof values of sections 8.3 and 8.4 are
      uninterpreted functions of the token. */
  datatype AcmeClient = AcmeClient(
    createOrder: seq<string> -> Result<AcmeOrder, ClientError>,
    getOrder: string -> Result<AcmeOrder, ClientError>,
    getAuthorization: string -> Result<Authorization, ClientError>,
    finalizeOrder: (string, seq<bv8>) -> Result<seq<seq<bv8>>, ClientError>,
    http01ChallengeResponse: string -> Result<string, ClientError>,
    dns01ChallengeRecord: string -> Result<string, ClientError>)

  /** The resource store as seen by one reconciliation: the Challenges the
      lister returns for the Order, and the outcome of each create and update. */
  datatype ChallengeStore = ChallengeStore(
    list: Result<seq<Challenge>, ClientError>,
    create: Challenge -> Option<ClientError>,
    updateOrder: OrderStatus -> Option<ClientError>)

  /** The wall clock and the two state classifiers defined outside the
      controller. */
  datatype Env = Env(
    now: Time,
    isFinalState: State -> bool,
    isFailureState: State -> bool)
}

=== FILE: api.dfy ===
/** The persisted resources the controller reads and writes: Orders and their
    Challenges, the issuer they reference, and the solver configuration. */
module Api {
  import opened Wrappers

  /** A resource state. The controller stores whatever string the ACME server
      reports, so a state is a plain string and the named states are constants. */
  type State = string

  /** The state of an Order whose status has never been populated. */
  const Unknown: State := ""
  const Pending: State := "pending"
  const Processing: State := "processing"
  const Ready: State := "ready"
  const Valid: State := "valid"
  const Invalid: State := "invalid"
  const Failed: State := "failed"
  const Expired: State := "expired"

  /** A point in time, as stored in `Status.FailureTime`. */
  type Time = int

  datatype ObjectReference = ObjectReference(name: string, kind: string)

  datatype HTTP01SolverConfig = HTTP01SolverConfig(ingress: string, ingressClass: Option<string>)

  datatype DNS01SolverConfig = DNS01SolverConfig(provider: string)

  /** The challenge mechanisms a user enabled for a group of domains. */
  datatype SolverConfig = SolverConfig(http01: Option<HTTP01SolverConfig>, dns01: Option<DNS01SolverConfig>)

  /** Domain patterns (possibly `*.`-prefixed) mapped to a solver configuration. */
  datatype DomainSolverConfig = DomainSolverConfig(domains: seq<string>, solverConfig: SolverConfig)

  /** The challenge mechanisms an ACME issuer supports; `None` means the
      mechanism is not configured on the issuer. */
  datatype ACMEIssuer = ACMEIssuer(http01: Option<string>, dns01: Option<string>)

  /** An Issuer or ClusterIssuer; `acme` is `None` for a non-ACME issuer. */
  datatype Issuer = Issuer(name: string, acme: Option<ACMEIssuer>)

  /** One planned challenge of an Order, fixed when the order is created. */
  datatype ChallengeSpec = ChallengeSpec(
    authzURL: string,
    challengeType: string,
    url: string,
    dnsName: string,
    token: string,
    key: string,
    config: SolverConfig,
    wildcard: bool,
    issuerRef: ObjectReference)

  datatype OrderSpec = OrderSpec(
    csr: seq<bv8>,
    issuerRef: ObjectReference,
    commonName: string,
    dnsNames: seq<string>,
    config: seq<DomainSolverConfig>)

  datatype OrderStatus = OrderStatus(
    url: string,
    finalizeURL: string,
    certificateURL: string,
    state: State,
    challenges: seq<ChallengeSpec>,
    failureTime: Option<Time>)

  datatype Order = Order(name: string, uid: string, spec: OrderSpec, status: OrderStatus)

  /** The controller reference a created Challenge carries back to its Order. */
  datatype OwnerReference = OwnerReference(kind: string, name: string, uid: string, controller: bool)

  datatype Challenge = Challenge(
    name: string,
    labels: map<string, string>,
    owner: OwnerReference,
    spec: ChallengeSpec,
    state: State)

  /** The label that ties a Challenge to the Order it was created for. */
  const OrderNameLabelKey: string := "acme.cert-manager.io/order-name"

  const OrderKind: string := "Order"
}

=== FILE: creator.dfy ===
/** The Order Creator: open an ACME order for the Order's identifiers and plan
    one challenge per authorization the server returns. */
module OrderCreator {
  import opened Wrappers
  import opened Api
  import opened Acme
  import opened Effects
  import opened Strings
  import opened Solver
  import opened StatusSync

  /** The identifiers sent to the server: the DNS names together with the common
      name when it is non-empty, sorted and without duplicates. */
  function IdentifierSet(dnsNames: seq<string>, commonName: string): (ids: seq<string>)
    ensures StrictlySorted(ids)
    ensures forall d :: d in ids <==> d in dnsNames || (commonName != "" && d == commonName)
  {
    SortedSet(dnsNames + (if commonName != "" then [commonName] else []))
  }

  /** The identifier list is the one sorted duplicate-free listing of its set:
      any other such listing of the same names is equal to it, so the order of
      the DNS names and any repetition among them do not matter. */
  lemma IdentifierSetCanonical(dnsNames: seq<string>, commonName: string, listing: seq<string>)
    requires StrictlySorted(listing)
    requires forall d :: d in listing <==> d in dnsNames || (commonName != "" && d == commonName)
    ensures IdentifierSet(dnsNames, commonName) == listing
  {
    SortedListingUnique(IdentifierSet(dnsNames, commonName), listing);
  }

  /** Fetches one authorization and builds its planned challenge. A failed fetch
      returns the client's error; a failed build is wrapped. */
  function AuthorizationSpec(client: AcmeClient, issuer: Issuer, spec: OrderSpec, authzURL: string): (r: Result<ChallengeSpec, Error>)
    ensures client.getAuthorization(authzURL).Failure? ==>
      r == Failure(AcmeCallFailed(client.getAuthorization(authzURL).error))
    ensures client.getAuthorization(authzURL).Success? ==>
      var built := ChallengeSpecForAuthorization(client, issuer, spec, client.getAuthorization(authzURL).value);
      && (r.Success? <==> built.Success?)
      && (built.Success? ==> r.value == built.value)
      && (built.Failure? ==> r.error == ChallengeSpecFailed(built.error))
  {
    match client.getAuthorization(authzURL)
    case Failure(e) => Failure(AcmeCallFailed(e))
    case Success(authz) =>
      ChallengeSpecForAuthorization(client, issuer, spec, authz).MapFailure(e => ChallengeSpecFailed(e))
  }

  datatype SpecsRun = SpecsRun(effects: seq<Effect>, result: Result<seq<ChallengeSpec>, Error>)

  /** Walks the authorization URLs in order, building each one's spec with
      `build` (fetch, then construct), and stops at the first failure. */
  function ChallengeSpecs(build: string -> Result<ChallengeSpec, Error>, urls: seq<string>): (r: SpecsRun)
    ensures |r.effects| <= |urls|
    ensures forall i :: 0 <= i < |r.effects| ==> r.effects[i] == GetAuthorizationCall(urls[i])
    ensures r.result.Success? <==> forall i :: 0 <= i < |urls| ==> build(urls[i]).Success?
    ensures r.result.Success? ==>
      && |r.effects| == |urls|
      && |r.result.value| == |urls|
      && forall i :: 0 <= i < |urls| ==> build(urls[i]) == Success(r.result.value[i])
    ensures r.result.Failure? ==>
      && 0 < |r.effects|
      && build(urls[|r.effects| - 1]) == Failure(r.result.error)
      && forall i :: 0 <= i < |r.effects| - 1 ==> build(urls[i]).Success?
  {
    if |urls| == 0 then SpecsRun([], Success([]))
    else
      var call := GetAuthorizationCall(urls[0]);
      match build(urls[0])
      case Failure(e) => SpecsRun([call], Failure(e))
      case Success(cs) =>
        var rest := ChallengeSpecs(build, urls[1..]);
        var result := if rest.result.Success? then Success([cs] + rest.result.value) else rest.result;
        SpecsRun([call] + rest.effects, result)
  }

  /** The authorization walk of order creation: `ChallengeSpecs` with each
      URL fetched and built by `AuthorizationSpec`. */
  function WalkAuthorizations(client: AcmeClient, issuer: Issuer, spec: OrderSpec, urls: seq<string>): (run: SpecsRun)
    ensures |run.effects| <= |urls|
    ensures forall i :: 0 <= i < |run.effects| ==> run.effects[i] == GetAuthorizationCall(urls[i])
    ensures run.result.Success? <==> forall i :: 0 <= i < |urls| ==> AuthorizationSpec(client, issuer, spec, urls[i]).Success?
    ensures run.result.Success? ==>
      && |run.effects| == |urls|
      && |run.result.value| == |urls|
      && forall i :: 0 <= i < |urls| ==> AuthorizationSpec(client, issuer, spec, urls[i]) == Success(run.result.value[i])
    ensures run.result.Failure? ==>
      && 0 < |run.effects|
      && AuthorizationSpec(client, issuer, spec, urls[|run.effects| - 1]) == Failure(run.result.error)
      && forall i :: 0 <= i < |run.effects| - 1 ==> AuthorizationSpec(client, issuer, spec, urls[i]).Success?
  {
    ChallengeSpecs(u => AuthorizationSpec(client, issuer, spec, u), urls)
  }

  /** The part of order creation after the server created the order `ao`:
      project it, then plan one challenge per authorization in order. The
      planned challenges are replaced only when every one was built. */
  function PlanFromAcmeOrder(env: Env, client: AcmeClient, issuer: Issuer, order: Order, ids: seq<string>, ao: AcmeOrder): (r: Step)
    ensures r.status.(challenges := order.status.challenges) == SetOrderStatus(env, order.status, ao)
    ensures r.err.None? <==> forall i :: 0 <= i < |ao.authorizations| ==> AuthorizationSpec(client, issuer, order.spec, ao.authorizations[i]).Success?
    ensures r.err.None? ==>
      && |r.status.challenges| == |ao.authorizations|
      && forall i :: 0 <= i < |ao.authorizations| ==>
           AuthorizationSpec(client, issuer, order.spec, ao.authorizations[i]) == Success(r.status.challenges[i])
    ensures r.err.Some? ==> r.status.challenges == order.status.challenges
    ensures 0 < |r.effects| <= |ao.authorizations| + 1 && r.effects[0] == CreateOrderCall(ids)
    ensures forall i :: 1 <= i < |r.effects| ==> r.effects[i] == GetAuthorizationCall(ao.authorizations[i - 1])
    ensures r.err.None? ==> |r.effects| == |ao.authorizations| + 1
    ensures r.err.Some? ==>
      && 2 <= |r.effects| <= |ao.authorizations| + 1
      && AuthorizationSpec(client, issuer, order.spec, ao.authorizations[|r.effects| - 2]) == Failure(r.err.value)
      && forall i :: 0 <= i < |r.effects| - 2 ==> AuthorizationSpec(client, issuer, order.spec, ao.authorizations[i]).Success?
  {
    var projected := SetOrderStatus(env, order.status, ao);
    var run := WalkAuthorizations(client, issuer, order.spec, ao.authorizations);
    var effects := [CreateOrderCall(ids)] + run.effects;
    match run.result
    case Failure(e) => Step(projected, effects, Some(e))
    case Success(chals) => Step(projected.(challenges := chals), effects, None)
  }

  /** Creates the ACME order for an Order that has none yet. The server's order
      is projected onto the status before the authorizations are walked, so a
      later failure leaves the URL, state and URLs set but the planned
      challenges as they were. */
  function CreateOrder(env: Env, client: AcmeClient, issuer: Issuer, order: Order): (r: Step)
    ensures order.status.url != "" ==> r == Step(order.status, [], Some(OrderAlreadyCreated(order.name)))
    ensures order.status.url == "" ==>
      && 0 < |r.effects|
      && r.effects[0] == CreateOrderCall(IdentifierSet(order.spec.dnsNames, order.spec.commonName))
      && forall i :: 1 <= i < |r.effects| ==> r.effects[i].GetAuthorizationCall?
    ensures order.status.url == "" && client.createOrder(IdentifierSet(order.spec.dnsNames, order.spec.commonName)).Failure? ==>
      && r == Step(order.status, [CreateOrderCall(IdentifierSet(order.spec.dnsNames, order.spec.commonName))],
                   Some(CreateOrderFailed(client.createOrder(IdentifierSet(order.spec.dnsNames, order.spec.commonName)).error)))
    ensures order.status.url == "" && client.createOrder(IdentifierSet(order.spec.dnsNames, order.spec.commonName)).Success? ==>
      var ids := IdentifierSet(order.spec.dnsNames, order.spec.commonName);
      r == PlanFromAcmeOrder(env, client, issuer, order, ids, client.createOrder(ids).value)
  {
    if order.status.url != "" then Step(order.status, [], Some(OrderAlreadyCreated(order.name)))
    else
      var ids := IdentifierSet(order.spec.dnsNames, order.spec.commonName);
      match client.createOrder(ids)
      case Failure(e) => Step(order.status, [CreateOrderCall(ids)], Some(CreateOrderFailed(e)))
      case Success(ao) => PlanFromAcmeOrder(env, client, issuer, order, ids, ao)
  }
}

=== FILE: effects.dfy ===
/** What one reconciliation produces: the errors it can return, the external
    calls it makes, and the resulting Order status. */
module Effects {
  import opened Wrappers
  import opened Api
  import opened Acme

  datatype Error =
    | IssuerNotFound(issuerName: string, cause: ClientError)
    | ClientUnavailable(cause: ClientError)
    | OrderAlreadyCreated(orderName: string)
    | CreateOrderFailed(cause: ClientError)
    | AcmeCallFailed(cause: ClientError)
    | ChallengeSpecFailed(inner: Error)
    | ConfigurationNotFound(domain: string)
    | NotAcmeIssuer(issuerName: string)
    | NoAcceptableChallenge(domain: string)
    | UnsupportedChallengeType(challengeType: string)
    | OrderNotCreated
    | UnknownStateRetry
    | StatusSyncFailed(inner: Error)
    | FinalizeFailed(cause: ClientError)
    | UnrecognizedState(state: State)
    | ChallengeListFailed(cause: ClientError)
    | ChallengeCreationFailed(causes: seq<ClientError>)
    | UpdateFailed(cause: ClientError)
    | Aggregate(errors: seq<Error>)

  /** An external call, in the order the controller makes it. */
  datatype Effect =
    | CreateOrderCall(identifiers: seq<string>)
    | GetAuthorizationCall(authzURL: string)
    | FinalizeOrderCall(finalizeURL: string, csr: seq<bv8>)
    | GetOrderCall(orderURL: string)
    | CreateChallengeCall(challenge: Challenge)
    | UpdateOrderCall(status: OrderStatus)

  /** The Order status after a step, the calls made, and the error returned. */
  datatype Step = Step(status: OrderStatus, effects: seq<Effect>, err: Option<Error>)

  function LiftClientError<T>(r: Result<T, ClientError>): Result<T, Error>
  {
    r.MapFailure(e => AcmeCallFailed(e))
  }
}

=== FILE: reconciler.dfy ===
/** The Challenge Reconciler: make sure Challenge resources exist for the
    planned specs, then decide from their states whether to ask the ACME server
    about the order again. */
module ChallengeReconciler {
  import opened Wrappers
  import opened Api
  import opened Acme
  import opened Effects
  import opened Strings
  import opened StatusSync

  /** Some existing Challenge targets the same DNS name as the planned spec. */
  predicate HasExisting(s: ChallengeSpec, existing: seq<Challenge>)
  {
    exists ch :: ch in existing && ch.spec.dnsName == s.dnsName
  }

  /** How far the planning scan gets: the length of the longest prefix of the
      planned specs none of which has an existing Challenge. The scan stops at
      the first planned spec that has one, whatever follows it. */
  function CreatablePrefix(planned: seq<ChallengeSpec>, existing: seq<Challenge>): (n: nat)
    ensures n <= |planned|
    ensures forall i :: 0 <= i < n ==> !HasExisting(planned[i], existing)
    ensures n < |planned| ==> HasExisting(planned[n], existing)
  {
    if |planned| == 0 || HasExisting(planned[0], existing) then 0
    else 1 + CreatablePrefix(planned[1..], existing)
  }

  /** The indices of the planned specs chosen for creation: index `i` is chosen
      exactly when no spec at or before `i` has an existing Challenge. With no
      existing Challenges, every index is chosen. */
  function SpecsToCreate(planned: seq<ChallengeSpec>, existing: seq<Challenge>): (chosen: set<nat>)
    ensures forall i: nat :: i in chosen <==> i < |planned| && forall j :: 0 <= j <= i ==> !HasExisting(planned[j], existing)
    ensures |existing| == 0 ==> forall i: nat :: i in chosen <==> i < |planned|
  {
    Below(CreatablePrefix(planned, existing))
  }

  function Below(n: nat): (r: set<nat>)
    ensures forall i: nat :: i in r <==> i < n
  {
    if n == 0 then {} else Below(n - 1) + {n - 1}
  }

  /** The labels of an Order's Challenges: just the order-name label. */
  function ChallengeLabelsForOrder(order: Order): (labels: map<string, string>)
    ensures labels.Keys == {OrderNameLabelKey} && labels[OrderNameLabelKey] == order.name
  {
    map[OrderNameLabelKey := order.name]
  }

  /** The Challenge resource for planned spec number `i`: named after the Order
      and the index, labelled with the Order's name, controlled by the Order. */
  function BuildChallenge(i: nat, order: Order, spec: ChallengeSpec): (ch: Challenge)
    ensures |ch.name| > |order.name| + 1
    ensures ch.name[..|order.name|] == order.name && ch.name[|order.name|] == '-'
    ensures AllDigits(ch.name[|order.name| + 1..]) && DecimalValue(ch.name[|order.name| + 1..]) == i
    ensures ch.name[|order.name| + 1] == '0' ==> |ch.name| == |order.name| + 2
    ensures ch.labels.Keys == {OrderNameLabelKey} && ch.labels[OrderNameLabelKey] == order.name
    ensures ch.owner == OwnerReference(OrderKind, order.name, order.uid, true)
    ensures ch.spec == spec && ch.state == Unknown
  {
    DecimalRoundTrip(i);
    var suffix := NatToString(i);
    var name := order.name + "-" + suffix;
    assert name[|order.name| + 1..] == suffix;
    Challenge(name, ChallengeLabelsForOrder(order), OwnerReference(OrderKind, order.name, order.uid, true), spec, Unknown)
  }

  /** Challenges built for different indices of one Order have different
      names, so the creations of one pass never collide with each other. */
  lemma ChallengeNamesDistinct(order: Order, i: nat, j: nat, si: ChallengeSpec, sj: ChallengeSpec)
    requires i != j
    ensures BuildChallenge(i, order, si).name != BuildChallenge(j, order, sj).name
  {
  }

  datatype CreationRun = CreationRun(effects: seq<Effect>, created: seq<Challenge>, errors: seq<ClientError>)

  /** The Challenges for the first `n` planned specs, index by index. */
  function PlannedChallenges(order: Order, n: nat): (chs: seq<Challenge>)
    requires n <= |order.status.challenges|
    ensures |chs| == n
    ensures forall k :: 0 <= k < n ==> chs[k] == BuildChallenge(k, order, order.status.challenges[k])
  {
    seq(n, k requires 0 <= k < n => BuildChallenge(k, order, order.status.challenges[k]))
  }

  /** How many creations of `chs` fail. */
  function NumFailures(chs: seq<Challenge>, create: Challenge -> Option<ClientError>): nat
  {
    if |chs| == 0 then 0
    else (if create(chs[0]).Some? then 1 else 0) + NumFailures(chs[1..], create)
  }

  /** How many creations of `chs` fail with the error `e`. */
  function FailuresWith(chs: seq<Challenge>, create: Challenge -> Option<ClientError>, e: ClientError): nat
  {
    if |chs| == 0 then 0
    else (if create(chs[0]) == Some(e) then 1 else 0) + FailuresWith(chs[1..], create, e)
  }

  /** Attempts to create every Challenge of `chs`. No failure stops the loop:
      failures are collected in order, successes kept. */
  function CreateChallenges(chs: seq<Challenge>, create: Challenge -> Option<ClientError>): (r: CreationRun)
    ensures |r.effects| == |chs|
    ensures forall k :: 0 <= k < |chs| ==> r.effects[k] == CreateChallengeCall(chs[k])
    ensures |r.errors| == 0 <==> forall k :: 0 <= k < |chs| ==> create(chs[k]).None?
    ensures |r.created| + |r.errors| == |chs|
    ensures forall c :: c in r.created <==> c in chs && create(c).None?
    ensures |r.errors| == NumFailures(chs, create)
    ensures forall e :: multiset(r.errors)[e] == FailuresWith(chs, create, e)
    ensures forall e :: e in r.errors <==> exists k :: 0 <= k < |chs| && create(chs[k]) == Some(e)
  {
    if |chs| == 0 then CreationRun([], [], [])
    else
      var rest := CreateChallenges(chs[1..], create);
      var call := CreateChallengeCall(chs[0]);
      assert forall c :: c in chs <==> c == chs[0] || c in chs[1..];
      assert forall e :: (exists k :: 0 <= k < |chs| && create(chs[k]) == Some(e)) <==>
          create(chs[0]) == Some(e) || exists k :: 0 <= k < |chs[1..]| && create(chs[1..][k]) == Some(e) by {
        forall e ensures (exists k :: 0 <= k < |chs| && create(chs[k]) == Some(e)) ==>
            create(chs[0]) == Some(e) || exists k :: 0 <= k < |chs[1..]| && create(chs[1..][k]) == Some(e) {
          if k :| 0 <= k < |chs| && create(chs[k]) == Some(e) {
            if k > 0 { assert chs[1..][k - 1] == chs[k]; }
          }
        }
      }
      match create(chs[0])
      case None => CreationRun([call] + rest.effects, [chs[0]] + rest.created, rest.errors)
      case Some(e) => CreationRun([call] + rest.effects, rest.created, [e] + rest.errors)
  }

  predicate IsActive(s: State)
  {
    s == Pending || s == Processing
  }

  predicate IsFailedChallenge(s: State)
  {
    s == Failed || s == Expired
  }

  datatype Readiness = Readiness(recheck: bool, anyFailed: bool)

  /** The readiness scan over the Challenges, in list order: an active
      Challenge clears `recheck`, a failed or expired one sets `anyFailed`. */
  function ScanReadiness(chs: seq<Challenge>): (r: Readiness)
    ensures r.recheck <==> forall i :: 0 <= i < |chs| ==> !IsActive(chs[i].state)
    ensures r.anyFailed <==> exists i :: 0 <= i < |chs| && IsFailedChallenge(chs[i].state)
  {
    if |chs| == 0 then Readiness(true, false)
    else
      var prev := ScanReadiness(chs[..|chs| - 1]);
      var s := chs[|chs| - 1].state;
      if IsActive(s) then prev.(recheck := false)
      else if IsFailedChallenge(s) then prev.(anyFailed := true)
      else prev
  }

  /** Whether to poll the ACME server: unless some Challenge is still active
      and none has failed. */
  function ShouldPoll(chs: seq<Challenge>): (poll: bool)
    ensures poll <==>
      || (forall i :: 0 <= i < |chs| ==> !IsActive(chs[i].state))
      || (exists i :: 0 <= i < |chs| && IsFailedChallenge(chs[i].state))
  {
    var r := ScanReadiness(chs);
    r.recheck || r.anyFailed
  }

  /** The poll decision depends only on which Challenges there are, not on the
      order they are listed in; the source appends newly created Challenges in
      an unspecified order. */
  lemma ShouldPollOrderIndependent(a: seq<Challenge>, b: seq<Challenge>)
    requires multiset(a) == multiset(b)
    ensures ShouldPoll(a) == ShouldPoll(b)
  {
    forall c | c in a ensures c in b {
      assert c in multiset(a);
    }
    forall c | c in b ensures c in a {
      assert c in multiset(b);
    }
    AnyStateIn(a, b);
    AnyStateIn(b, a);
  }

  lemma AnyStateIn(a: seq<Challenge>, b: seq<Challenge>)
    requires forall c :: c in a ==> c in b
    ensures (exists i :: 0 <= i < |a| && IsActive(a[i].state)) ==> exists j :: 0 <= j < |b| && IsActive(b[j].state)
    ensures (exists i :: 0 <= i < |a| && IsFailedChallenge(a[i].state)) ==> exists j :: 0 <= j < |b| && IsFailedChallenge(b[j].state)
  {
    if i :| 0 <= i < |a| && IsActive(a[i].state) {
      assert a[i] in b;
    }
    if i :| 0 <= i < |a| && IsFailedChallenge(a[i].state) {
      assert a[i] in b;
    }
  }

  /** The Pending/Processing branch of a reconciliation: list the Order's
      Challenges, create the chosen ones, and re-synchronize the status when
      the Challenges' states call for it. */
  function ReconcileChallenges(env: Env, client: AcmeClient, store: ChallengeStore, order: Order): (r: Step)
    ensures store.list.Failure? ==> r == Step(order.status, [], Some(ChallengeListFailed(store.list.error)))
    ensures store.list.Success? ==>
      var n := CreatablePrefix(order.status.challenges, store.list.value);
      && n <= |r.effects|
      && (forall k :: 0 <= k < n ==>
            r.effects[k] == CreateChallengeCall(BuildChallenge(k, order, order.status.challenges[k])))
      && (forall k :: n <= k < |r.effects| ==> r.effects[k] == GetOrderCall(order.status.url))
    ensures store.list.Success? ==>
      var n := CreatablePrefix(order.status.challenges, store.list.value);
      var run := CreateChallenges(PlannedChallenges(order, n), store.create);
      && (|run.errors| > 0 ==> r == Step(order.status, run.effects, Some(ChallengeCreationFailed(run.errors))))
      && (|run.errors| == 0 && !ShouldPoll(store.list.value + run.created) ==> r == Step(order.status, run.effects, None))
      && (|run.errors| == 0 && ShouldPoll(store.list.value + run.created) ==>
            var s := SyncOrderStatus(env, client, order.status);
            r == Step(s.status, run.effects + s.effects, s.err))
    ensures r.status.challenges == order.status.challenges
  {
    match store.list
    case Failure(e) => Step(order.status, [], Some(ChallengeListFailed(e)))
    case Success(existing) =>
      var n := CreatablePrefix(order.status.challenges, existing);
      var run := CreateChallenges(PlannedChallenges(order, n), store.create);
      if |run.errors| > 0 then Step(order.status, run.effects, Some(ChallengeCreationFailed(run.errors)))
      else if !ShouldPoll(existing + run.created) then Step(order.status, run.effects, None)
      else
        var s := SyncOrderStatus(env, client, order.status);
        Step(s.status, run.effects + s.effects, s.err)
  }

  /** After a pass in which every chosen creation succeeded, a second planning
      pass over the enlarged list of Challenges chooses nothing: no Challenge
      is created twice. */
  lemma SecondPassCreatesNothing(order: Order, create: Challenge -> Option<ClientError>, existing: seq<Challenge>)
    requires forall k :: 0 <= k < CreatablePrefix(order.status.challenges, existing) ==>
      create(BuildChallenge(k, order, order.status.challenges[k])).None?
    ensures
      var n := CreatablePrefix(order.status.challenges, existing);
      SpecsToCreate(order.status.challenges, existing + CreateChallenges(PlannedChallenges(order, n), create).created) == {}
  {
    var planned := order.status.challenges;
    var n := CreatablePrefix(planned, existing);
    var run := CreateChallenges(PlannedChallenges(order, n), create);
    var all := existing + run.created;
    if |planned| > 0 {
      if n == 0 {
        var ch :| ch in existing && ch.spec.dnsName == planned[0].dnsName;
        assert ch in all;
      } else {
        var ch := BuildChallenge(0, order, planned[0]);
        assert ch in run.created;
        assert ch in all;
      }
      assert HasExisting(planned[0], all);
    }
    assert CreatablePrefix(planned, all) == 0;
  }

  /** With no Challenges listed, every planned spec gets a Challenge: a create
      call for `<order>-0`, `<order>-1`, ... in planned order. */
  lemma {:induction false} NothingExistingPlansAll(planned: seq<ChallengeSpec>)
    ensures CreatablePrefix(planned, []) == |planned|
  {
    if |planned| > 0 {
      NothingExistingPlansAll(planned[1..]);
    }
  }

  lemma NothingExistingCreatesAll(env: Env, client: AcmeClient, store: ChallengeStore, order: Order)
    requires store.list == Success([])
    ensures var r := ReconcileChallenges(env, client, store, order);
      && |order.status.challenges| <= |r.effects|
      && forall k :: 0 <= k < |order.status.challenges| ==>
           r.effects[k] == CreateChallengeCall(BuildChallenge(k, order, order.status.challenges[k]))
  {
    NothingExistingPlansAll(order.status.challenges);
  }
}

=== FILE: solver.dfy ===
/** The Challenge Spec Builder: for one ACME authorization, find the user's
    solver configuration, pick the challenge to attempt, compute its proof
    value, and assemble the planned ChallengeSpec. */
module Solver {
  import opened Wrappers
  import opened Api
  import opened Acme
  import opened Effects

  /** The pattern a configuration must list for this authorization: the
      identifier value, prefixed with `*.` for a wildcard authorization. */
  function DomainToFind(authz: Authorization): string
  {
    if authz.wildcard then "*." + authz.identifier else authz.identifier
  }

  /** The index of the first configuration entry whose domains contain `key`. */
  function FirstMatchingConfig(cfgs: seq<DomainSolverConfig>, key: string): (r: Option<nat>)
    ensures r.Some? ==> r.value < |cfgs| && key in cfgs[r.value].domains
    ensures r.Some? ==> forall j :: 0 <= j < r.value ==> key !in cfgs[j].domains
    ensures r.None? <==> forall j :: 0 <= j < |cfgs| ==> key !in cfgs[j].domains
  {
    if |cfgs| == 0 then None
    else if key in cfgs[0].domains then Some(0)
    else
      match FirstMatchingConfig(cfgs[1..], key)
      case None => None
      case Some(i) => Some(i + 1)
  }

  /** The solver configuration for an authorization: the first entry, in
      configuration order, whose domains contain the lookup key. */
  function SolverConfigurationForAuthorization(cfgs: seq<DomainSolverConfig>, authz: Authorization): (r: Result<SolverConfig, Error>)
    ensures r.Failure? <==> forall j :: 0 <= j < |cfgs| ==> DomainToFind(authz) !in cfgs[j].domains
    ensures r.Failure? ==> r.error == ConfigurationNotFound(DomainToFind(authz))
    ensures r.Success? ==>
      exists i :: 0 <= i < |cfgs| && DomainToFind(authz) in cfgs[i].domains
        && r.value == cfgs[i].solverConfig
        && forall j :: 0 <= j < i ==> DomainToFind(authz) !in cfgs[j].domains
  {
    var key := DomainToFind(authz);
    match FirstMatchingConfig(cfgs, key)
    case None => Failure(ConfigurationNotFound(key))
    case Some(i) => Success(cfgs[i].solverConfig)
  }

  /** A challenge is acceptable when its type is HTTP-01 or DNS-01 and that
      mechanism is enabled both in the solver configuration and on the issuer. */
  predicate Acceptable(ch: AcmeChallenge, cfg: SolverConfig, acme: ACMEIssuer)
  {
    || (ch.challengeType == Http01 && cfg.http01.Some? && acme.http01.Some?)
    || (ch.challengeType == Dns01 && cfg.dns01.Some? && acme.dns01.Some?)
  }

  /** The index of the challenge the selection loop ends with: every acceptable
      challenge overwrites the previous choice, so the last one wins. */
  function SelectChallenge(chs: seq<AcmeChallenge>, cfg: SolverConfig, acme: ACMEIssuer): (r: Option<nat>)
    ensures r.Some? ==> r.value < |chs| && Acceptable(chs[r.value], cfg, acme)
    ensures r.Some? ==> forall j :: r.value < j < |chs| ==> !Acceptable(chs[j], cfg, acme)
    ensures r.None? <==> forall j :: 0 <= j < |chs| ==> !Acceptable(chs[j], cfg, acme)
  {
    if |chs| == 0 then None
    else if Acceptable(chs[|chs| - 1], cfg, acme) then Some(|chs| - 1)
    else SelectChallenge(chs[..|chs| - 1], cfg, acme)
  }

  /** The proof value for a challenge: the key authorization for HTTP-01, the
      TXT record value for DNS-01; any other type is unsupported. */
  function KeyForChallenge(client: AcmeClient, ch: AcmeChallenge): (r: Result<string, Error>)
    ensures r.Success? <==>
      || (ch.challengeType == Http01 && client.http01ChallengeResponse(ch.token).Success?)
      || (ch.challengeType == Dns01 && client.dns01ChallengeRecord(ch.token).Success?)
    ensures ch.challengeType == Http01 && r.Success? ==> client.http01ChallengeResponse(ch.token) == Success(r.value)
    ensures ch.challengeType == Dns01 && r.Success? ==> client.dns01ChallengeRecord(ch.token) == Success(r.value)
    ensures ch.challengeType == Http01 && client.http01ChallengeResponse(ch.token).Failure? ==>
      r == Failure(AcmeCallFailed(client.http01ChallengeResponse(ch.token).error))
    ensures ch.challengeType == Dns01 && client.dns01ChallengeRecord(ch.token).Failure? ==>
      r == Failure(AcmeCallFailed(client.dns01ChallengeRecord(ch.token).error))
    ensures ch.challengeType != Http01 && ch.challengeType != Dns01 ==>
      r == Failure(UnsupportedChallengeType(ch.challengeType))
  {
    if ch.challengeType == Http01 then LiftClientError(client.http01ChallengeResponse(ch.token))
    else if ch.challengeType == Dns01 then LiftClientError(client.dns01ChallengeRecord(ch.token))
    else Failure(UnsupportedChallengeType(ch.challengeType))
  }

  /** The planned challenge for one authorization of an Order. The solver
      configuration is looked up first, then the issuer must be an ACME issuer,
      then a challenge is selected and its proof value computed. */
  function ChallengeSpecForAuthorization(client: AcmeClient, issuer: Issuer, spec: OrderSpec, authz: Authorization): (r: Result<ChallengeSpec, Error>)
    ensures SolverConfigurationForAuthorization(spec.config, authz).Failure? ==>
      r == Failure(ConfigurationNotFound(DomainToFind(authz)))
    ensures SolverConfigurationForAuthorization(spec.config, authz).Success? && issuer.acme.None? ==>
      r == Failure(NotAcmeIssuer(issuer.name))
    ensures
      (&& SolverConfigurationForAuthorization(spec.config, authz).Success?
       && issuer.acme.Some?
       && SelectChallenge(authz.challenges, SolverConfigurationForAuthorization(spec.config, authz).value, issuer.acme.value).None?)
      ==> r == Failure(NoAcceptableChallenge(authz.identifier))
    ensures r.Success? <==>
      && SolverConfigurationForAuthorization(spec.config, authz).Success?
      && issuer.acme.Some?
      && SelectChallenge(authz.challenges, SolverConfigurationForAuthorization(spec.config, authz).value, issuer.acme.value).Some?
      && KeyForChallenge(client, authz.challenges[
           SelectChallenge(authz.challenges, SolverConfigurationForAuthorization(spec.config, authz).value, issuer.acme.value).value]).Success?
    ensures
      (&& SolverConfigurationForAuthorization(spec.config, authz).Success?
       && issuer.acme.Some?
       && SelectChallenge(authz.challenges, SolverConfigurationForAuthorization(spec.config, authz).value, issuer.acme.value).Some?
       && KeyForChallenge(client, authz.challenges[
            SelectChallenge(authz.challenges, SolverConfigurationForAuthorization(spec.config, authz).value, issuer.acme.value).value]).Failure?)
      ==> r == Failure(KeyForChallenge(client, authz.challenges[
            SelectChallenge(authz.challenges, SolverConfigurationForAuthorization(spec.config, authz).value, issuer.acme.value).value]).error)
    ensures r.Success? ==>
      && r.value.authzURL == authz.url
      && r.value.dnsName == authz.identifier
      && r.value.wildcard == authz.wildcard
      && r.value.issuerRef == spec.issuerRef
      && SolverConfigurationForAuthorization(spec.config, authz) == Success(r.value.config)
      && issuer.acme.Some?
      && (r.value.challengeType == Http01 || r.value.challengeType == Dns01)
      && KeyForChallenge(client, AcmeChallenge(r.value.challengeType, r.value.url, r.value.token)) == Success(r.value.key)
      && exists k :: 0 <= k < |authz.challenges|
           && authz.challenges[k] == AcmeChallenge(r.value.challengeType, r.value.url, r.value.token)
           && Acceptable(authz.challenges[k], r.value.config, issuer.acme.value)
           && forall j :: k < j < |authz.challenges| ==> !Acceptable(authz.challenges[j], r.value.config, issuer.acme.value)
  {
    var cfg :- SolverConfigurationForAuthorization(spec.config, authz);
    if issuer.acme.None? then Failure(NotAcmeIssuer(issuer.name))
    else
      match SelectChallenge(authz.challenges, cfg, issuer.acme.value)
      case None => Failure(NoAcceptableChallenge(authz.identifier))
      case Some(k) =>
        var ch := authz.challenges[k];
        var key :- KeyForChallenge(client, ch);
        Success(ChallengeSpec(
          authzURL := authz.url,
          challengeType := ch.challengeType,
          url := ch.url,
          dnsName := authz.identifier,
          token := ch.token,
          key := key,
          config := cfg,
          wildcard := authz.wildcard,
          issuerRef := spec.issuerRef))
  }

  /** A wildcard authorization for `d` is matched only by the pattern `*.d`:
      a configuration listing `d` alone does not apply to it. */
  lemma WildcardNeedsPrefixedPattern(cfgs: seq<DomainSolverConfig>, authz: Authorization)
    requires authz.wildcard
    requires forall j :: 0 <= j < |cfgs| ==> "*." + authz.identifier !in cfgs[j].domains
    ensures SolverConfigurationForAuthorization(cfgs, authz) == Failure(ConfigurationNotFound("*." + authz.identifier))
  {
  }

  /** When the server offers DNS-01 and then HTTP-01 and both are enabled on
      both sides, HTTP-01 is chosen: the later offer wins. */
  lemma LaterOfferWins(client: AcmeClient, issuer: Issuer, spec: OrderSpec, authz: Authorization, cfg: SolverConfig)
    requires SolverConfigurationForAuthorization(spec.config, authz) == Success(cfg)
    requires cfg.http01.Some? && cfg.dns01.Some?
    requires issuer.acme.Some? && issuer.acme.value.http01.Some? && issuer.acme.value.dns01.Some?
    requires |authz.challenges| == 2
    requires authz.challenges[0].challengeType == Dns01 && authz.challenges[1].challengeType == Http01
    requires client.http01ChallengeResponse(authz.challenges[1].token).Success?
    ensures ChallengeSpecForAuthorization(client, issuer, spec, authz).Success?
    ensures ChallengeSpecForAuthorization(client, issuer, spec, authz).value.challengeType == Http01
    ensures ChallengeSpecForAuthorization(client, issuer, spec, authz).value.token == authz.challenges[1].token
  {
    assert SelectChallenge(authz.challenges, cfg, issuer.acme.value) == Some(1);
  }
}

=== FILE: status.dfy ===
/** The Order Status Synchronizer: project an ACME order onto the persisted
    Order status, and refresh that projection from the server. */
module StatusSync {
  import opened Wrappers
  import opened Api
  import opened Acme
  import opened Effects

  /** Sets the state; a failure state stamps the failure time with the current
      time on every call, not only on the first one. */
  function SetOrderState(env: Env, st: OrderStatus, s: State): (r: OrderStatus)
    ensures r.state == s
    ensures env.isFailureState(s) ==> r.failureTime == Some(env.now)
    ensures !env.isFailureState(s) ==> r.failureTime == st.failureTime
    ensures r.(state := st.state, failureTime := st.failureTime) == st
  {
    if env.isFailureState(s) then st.(state := s, failureTime := Some(env.now))
    else st.(state := s)
  }

  /** Projects a server order onto the status: the reported status string
      becomes the state verbatim, and the three URLs are copied. The planned
      challenges are untouched. */
  function SetOrderStatus(env: Env, st: OrderStatus, ao: AcmeOrder): (r: OrderStatus)
    ensures r.state == ao.status
    ensures r.url == ao.url && r.finalizeURL == ao.finalizeURL && r.certificateURL == ao.certificateURL
    ensures r.challenges == st.challenges
    ensures env.isFailureState(ao.status) ==> r.failureTime == Some(env.now)
    ensures !env.isFailureState(ao.status) ==> r.failureTime == st.failureTime
  {
    SetOrderState(env, st, ao.status).(url := ao.url, finalizeURL := ao.finalizeURL, certificateURL := ao.certificateURL)
  }

  /** Fetches the order by its URL and projects it; an Order that was never
      created is refused without a call, and a failed fetch changes nothing. */
  function SyncOrderStatus(env: Env, client: AcmeClient, st: OrderStatus): (r: Step)
    ensures st.url == "" ==> r == Step(st, [], Some(OrderNotCreated))
    ensures st.url != "" ==> r.effects == [GetOrderCall(st.url)]
    ensures st.url != "" && client.getOrder(st.url).Failure? ==>
      r.status == st && r.err == Some(AcmeCallFailed(client.getOrder(st.url).error))
    ensures st.url != "" && client.getOrder(st.url).Success? ==>
      r.status == SetOrderStatus(env, st, client.getOrder(st.url).value) && r.err.None?
    ensures r.status.challenges == st.challenges
  {
    if st.url == "" then Step(st, [], Some(OrderNotCreated))
    else
      match client.getOrder(st.url)
      case Failure(e) => Step(st, [GetOrderCall(st.url)], Some(AcmeCallFailed(e)))
      case Success(ao) => Step(SetOrderStatus(env, st, ao), [GetOrderCall(st.url)], None)
  }

  /** Re-entering a failure state refreshes the failure time: two projections
      of a failed order at times `t1` and `t2` leave `t2`, whatever `t1` was. */
  lemma FailureTimeRefreshed(env: Env, st: OrderStatus, ao: AcmeOrder, t1: Time, t2: Time)
    requires env.isFailureState(ao.status)
    ensures SetOrderStatus(env.(now := t2), SetOrderStatus(env.(now := t1), st, ao), ao).failureTime == Some(t2)
  {
  }

  /** Projecting the same server order twice at the same time changes nothing
      the second time. */
  lemma SetOrderStatusIdempotent(env: Env, st: OrderStatus, ao: AcmeOrder)
    ensures SetOrderStatus(env, SetOrderStatus(env, st, ao), ao) == SetOrderStatus(env, st, ao)
  {
  }

  /** Synchronizing twice against an unchanged server, at the same time, gives
      the same status as synchronizing once, provided the server reports the
      order under the URL it was fetched from. */
  lemma SyncOrderStatusIdempotent(env: Env, client: AcmeClient, st: OrderStatus)
    requires client.getOrder(st.url).Success? ==> client.getOrder(st.url).value.url == st.url
    ensures SyncOrderStatus(env, client, SyncOrderStatus(env, client, st).status).status
         == SyncOrderStatus(env, client, st).status
  {
  }

  /** A projection onto a non-failure state does not depend on the time it is
      made at; only a failure state reads the clock. */
  lemma SetOrderStatusTimeIndependent(env: Env, st: OrderStatus, ao: AcmeOrder, t1: Time, t2: Time)
    requires !env.isFailureState(ao.status)
    ensures SetOrderStatus(env.(now := t1), st, ao) == SetOrderStatus(env.(now := t2), st, ao)
  {
  }

  /** Re-synchronizing at a later time against an unchanged server that reports
      a non-failure state under the order's own URL leaves the status as the
      first synchronization made it. */
  lemma SyncOrderStatusStableAcrossTimes(env: Env, client: AcmeClient, st: OrderStatus, t1: Time, t2: Time)
    requires client.getOrder(st.url).Success? ==>
      client.getOrder(st.url).value.url == st.url && !env.isFailureState(client.getOrder(st.url).value.status)
    ensures SyncOrderStatus(env.(now := t2), client, SyncOrderStatus(env.(now := t1), client, st).status).status
         == SyncOrderStatus(env.(now := t1), client, st).status
  {
  }
}

=== FILE: strings.dfy ===
/** String helpers the controller relies on: the byte-wise lexicographic order
    Go's `sort.Strings` uses, the sorted duplicate-free listing of a string set
    (`sets.String.List`), and the decimal rendering of `%d`. */
module Strings {

  /** Lexicographic order: a proper prefix comes first, otherwise the first
      differing character decides. On UTF-8 text this agrees with Go's byte
      order, since code point order and UTF-8 byte order coincide. */
  predicate Less(a: string, b: string)
    decreases |a|
  {
    if |a| == 0 then |b| > 0
    else if |b| == 0 then false
    else if a[0] != b[0] then a[0] < b[0]
    else Less(a[1..], b[1..])
  }

  lemma {:induction false} LessIrreflexive(a: string)
    ensures !Less(a, a)
    decreases |a|
  {
    if |a| > 0 {
      LessIrreflexive(a[1..]);
    }
  }

  lemma {:induction false} LessTransitive(a: string, b: string, c: string)
    requires Less(a, b) && Less(b, c)
    ensures Less(a, c)
    decreases |a|
  {
    if |a| > 0 && a[0] == b[0] && b[0] == c[0] {
      LessTransitive(a[1..], b[1..], c[1..]);
    }
  }

  lemma {:induction false} LessTotal(a: string, b: string)
    requires a != b
    ensures Less(a, b) || Less(b, a)
    decreases |a|
  {
    if |a| > 0 && |b| > 0 && a[0] == b[0] {
      assert a == [a[0]] + a[1..] && b == [b[0]] + b[1..];
      LessTotal(a[1..], b[1..]);
    }
  }

  predicate StrictlySorted(xs: seq<string>)
  {
    forall i, j :: 0 <= i < j < |xs| ==> Less(xs[i], xs[j])
  }

  /** Inserts `x` into a strictly sorted list, keeping it strictly sorted and
      adding nothing when `x` is already present. */
  function Insert(xs: seq<string>, x: string): (r: seq<string>)
    requires StrictlySorted(xs)
    ensures StrictlySorted(r)
    ensures forall y :: y in r <==> y in xs || y == x
  {
    if |xs| == 0 then [x]
    else if x == xs[0] then xs
    else if Less(x, xs[0]) then
      assert forall j :: 0 <= j < |xs| ==> Less(x, xs[j]) by {
        forall j | 0 <= j < |xs| ensures Less(x, xs[j]) {
          if j > 0 { LessTransitive(x, xs[0], xs[j]); }
        }
      }
      [x] + xs
    else
      LessTotal(x, xs[0]);
      var rest := Insert(xs[1..], x);
      assert forall y :: y in rest ==> Less(xs[0], y) by {
        forall y | y in rest ensures Less(xs[0], y) {
          if y != x {
            var k :| 0 <= k < |xs[1..]| && xs[1..][k] == y;
            assert xs[k + 1] == y;
          }
        }
      }
      [xs[0]] + rest
  }

  /** The sorted, duplicate-free listing of the elements of `xs`. */
  function SortedSet(xs: seq<string>): (r: seq<string>)
    ensures StrictlySorted(r)
    ensures forall y :: y in r <==> y in xs
  {
    if |xs| == 0 then [] else Insert(SortedSet(xs[1..]), xs[0])
  }

  /** A strictly sorted list is determined by its elements: two strictly sorted
      lists holding the same strings are the same list. */
  lemma {:induction false} SortedListingUnique(a: seq<string>, b: seq<string>)
    requires StrictlySorted(a) && StrictlySorted(b)
    requires forall y :: y in a <==> y in b
    ensures a == b
    decreases |a|
  {
    assert |b| > 0 ==> b[0] in a;
    if |a| > 0 {
      assert a[0] in b;
      assert b[0] in a;
      var k :| 0 <= k < |b| && b[k] == a[0];
      var m :| 0 <= m < |a| && a[m] == b[0];
      if a[0] != b[0] {
        assert k > 0 && m > 0;
        assert Less(b[0], a[0]) && Less(a[0], b[0]);
        LessTransitive(a[0], b[0], a[0]);
        LessIrreflexive(a[0]);
        assert false;
      }
      forall y
        ensures y in a[1..] <==> y in b[1..]
      {
        if y in a[1..] {
          var i :| 0 <= i < |a[1..]| && a[1..][i] == y;
          assert Less(a[0], a[i + 1]);
          if y == a[0] { LessIrreflexive(y); }
          assert y in b;
          var j :| 0 <= j < |b| && b[j] == y;
          assert j != 0;
          assert b[j] in b[1..];
        }
        if y in b[1..] {
          var i :| 0 <= i < |b[1..]| && b[1..][i] == y;
          assert Less(b[0], b[i + 1]);
          if y == b[0] { LessIrreflexive(y); }
          assert y in a;
          var j :| 0 <= j < |a| && a[j] == y;
          assert j != 0;
          assert a[j] in a[1..];
        }
      }
      SortedListingUnique(a[1..], b[1..]);
      assert a == [a[0]] + a[1..] && b == [b[0]] + b[1..];
    }
  }

  predicate IsDigit(c: char)
  {
    '0' <= c <= '9'
  }

  predicate AllDigits(s: string)
  {
    forall i :: 0 <= i < |s| ==> IsDigit(s[i])
  }

  function DigitChar(d: nat): (c: char)
    requires d < 10
    ensures IsDigit(c) && c as int - '0' as int == d
  {
    ('0' as int + d) as char
  }

  /** The value of a string of decimal digits. */
  function DecimalValue(s: string): nat
    requires AllDigits(s)
  {
    if |s| == 0 then 0
    else DecimalValue(s[..|s| - 1]) * 10 + (s[|s| - 1] as int - '0' as int)
  }

  /** The decimal rendering of a natural number, as `%d` prints it. */
  function NatToString(n: nat): (s: string)
    ensures |s| > 0 && AllDigits(s)
    ensures s[0] == '0' ==> n == 0 && |s| == 1
    decreases n
  {
    if n < 10 then [DigitChar(n)]
    else NatToString(n / 10) + [DigitChar(n % 10)]
  }

  lemma {:induction false} DecimalRoundTrip(n: nat)
    ensures DecimalValue(NatToString(n)) == n
    decreases n
  {
    if n >= 10 {
      var s := NatToString(n);
      assert s[..|s| - 1] == NatToString(n / 10);
      DecimalRoundTrip(n / 10);
    }
  }
}

=== FILE: sync.dfy ===
/** The Order Sync Orchestrator: one reconciliation of one Order, dispatched on
    whether the ACME order exists and on its state, followed by the deferred
    write of the status. */
module OrderSync {
  import opened Wrappers
  import opened Api
  import opened Acme
  import opened Effects
  import opened StatusSync
  import opened OrderCreator
  import opened ChallengeReconciler

  /** The calls a reconciliation may make before the final status write. */
  predicate IsRemoteCall(e: Effect)
  {
    !e.UpdateOrderCall?
  }

  /** The Ready branch: finalize, then synchronize whatever happened. A failed
      synchronization is reported in preference to a failed finalization. */
  function FinalizeAndSync(env: Env, client: AcmeClient, order: Order): (r: Step)
    requires order.status.url != ""
    ensures r.effects == [FinalizeOrderCall(order.status.finalizeURL, order.spec.csr), GetOrderCall(order.status.url)]
    ensures client.getOrder(order.status.url).Failure? ==>
      r.status == order.status
      && r.err == Some(StatusSyncFailed(AcmeCallFailed(client.getOrder(order.status.url).error)))
    ensures client.getOrder(order.status.url).Success? ==>
      r.status == SetOrderStatus(env, order.status, client.getOrder(order.status.url).value)
    ensures client.getOrder(order.status.url).Success? && client.finalizeOrder(order.status.finalizeURL, order.spec.csr).Failure? ==>
      r.err == Some(FinalizeFailed(client.finalizeOrder(order.status.finalizeURL, order.spec.csr).error))
    ensures r.err.None? <==>
      client.getOrder(order.status.url).Success? && client.finalizeOrder(order.status.finalizeURL, order.spec.csr).Success?
  {
    var fin := client.finalizeOrder(order.status.finalizeURL, order.spec.csr);
    var s := SyncOrderStatus(env, client, order.status);
    var effects := [FinalizeOrderCall(order.status.finalizeURL, order.spec.csr)] + s.effects;
    if s.err.Some? then Step(s.status, effects, Some(StatusSyncFailed(s.err.value)))
    else if fin.Failure? then Step(s.status, effects, Some(FinalizeFailed(fin.error)))
    else Step(s.status, effects, None)
  }

  /** One reconciliation of an Order, before the status is written back. The
      issuer and the ACME client are looked up first; either may fail. */
  function Sync(env: Env, issuer: Result<Issuer, ClientError>, client: Result<AcmeClient, ClientError>,
                store: ChallengeStore, order: Order): (r: Step)
    ensures issuer.Failure? ==>
      r == Step(order.status, [], Some(IssuerNotFound(order.spec.issuerRef.name, issuer.error)))
    ensures issuer.Success? && client.Failure? ==>
      r == Step(order.status, [], Some(ClientUnavailable(client.error)))
    ensures forall e :: e in r.effects ==> IsRemoteCall(e)
    ensures issuer.Success? && client.Success? && order.status.url == "" ==>
      r == CreateOrder(env, client.value, issuer.value, order)
    ensures order.status.url != "" ==>
      && r.status.challenges == order.status.challenges
      && forall e :: e in r.effects ==> !e.CreateOrderCall? && !e.GetAuthorizationCall?
    ensures issuer.Success? && client.Success? && order.status.url != "" && env.isFinalState(order.status.state) ==>
      r == Step(order.status, [], None)
    ensures issuer.Success? && client.Success? && order.status.url != "" && !env.isFinalState(order.status.state) ==>
      var s := order.status.state;
      && (s == Unknown ==>
            var synced := SyncOrderStatus(env, client.value, order.status);
            && r.err.Some?
            && r.status == synced.status
            && r.effects == [GetOrderCall(order.status.url)]
            && (synced.err.Some? ==> r.err == synced.err)
            && (synced.err.None? ==> r.err == Some(UnknownStateRetry)))
      && (s == Ready ==> r == FinalizeAndSync(env, client.value, order))
      && (s == Pending || s == Processing ==> r == ReconcileChallenges(env, client.value, store, order))
      && (s != Unknown && s != Ready && s != Pending && s != Processing ==>
            r == Step(order.status, [], Some(UnrecognizedState(s))))
  {
    match issuer
    case Failure(e) => Step(order.status, [], Some(IssuerNotFound(order.spec.issuerRef.name, e)))
    case Success(iss) =>
      match client
      case Failure(e) => Step(order.status, [], Some(ClientUnavailable(e)))
      case Success(cl) =>
        if order.status.url == "" then CreateOrder(env, cl, iss, order)
        else if env.isFinalState(order.status.state) then Step(order.status, [], None)
        else if order.status.state == Unknown then
          var s := SyncOrderStatus(env, cl, order.status);
          if s.err.Some? then s else s.(err := Some(UnknownStateRetry))
        else if order.status.state == Ready then FinalizeAndSync(env, cl, order)
        else if order.status.state == Pending || order.status.state == Processing then
          ReconcileChallenges(env, cl, store, order)
        else Step(order.status, [], Some(UnrecognizedState(order.status.state)))
  }

  /** The deferred write exactly as the source has it: the status is written
      when it changed, but the write's error is kept only when the
      reconciliation had already failed. */
  function PersistAsWritten(original: OrderStatus, step: Step, update: OrderStatus -> Option<ClientError>): (r: Step)
    ensures r.status == step.status
    ensures step.status == original ==> r == step
    ensures step.status != original ==> r.effects == step.effects + [UpdateOrderCall(step.status)]
    ensures r.err.None? <==> step.err.None?
    ensures step.status != original && step.err.Some? ==>
      r.err == Some(Aggregate([step.err.value] + UpdateErrors(update(step.status))))
  {
    if step.status == original then step
    else
      var effects := step.effects + [UpdateOrderCall(step.status)];
      match step.err
      case None => Step(step.status, effects, None)
      case Some(e) => Step(step.status, effects, Some(Aggregate([e] + UpdateErrors(update(step.status)))))
  }

  function UpdateErrors(u: Option<ClientError>): seq<Error>
  {
    match u
    case None => []
    case Some(e) => [UpdateFailed(e)]
  }

  /** A reconciliation that succeeded but whose status write failed is reported
      as a success by the deferred write as written: the new status is lost
      and nothing asks for a retry. */
  lemma UpdateFailureSwallowed(original: OrderStatus, step: Step, update: OrderStatus -> Option<ClientError>)
    requires step.err.None? && step.status != original && update(step.status).Some?
    ensures PersistAsWritten(original, step, update).err.None?
    ensures UpdateOrderCall(step.status) in PersistAsWritten(original, step, update).effects
  {
    var r := PersistAsWritten(original, step, update);
    assert r.effects[|r.effects| - 1] == UpdateOrderCall(step.status);
  }

  /** The deferred write as evidently intended: the status is written when it
      changed, and a failed write is reported whether or not the
      reconciliation itself failed. */
  function Persist(original: OrderStatus, step: Step, update: OrderStatus -> Option<ClientError>): (r: Step)
    ensures r.status == step.status
    ensures step.status == original ==> r == step
    ensures step.status != original ==> r.effects == step.effects + [UpdateOrderCall(step.status)]
    ensures r.err.None? <==> step.err.None? && (step.status == original || update(step.status).None?)
    ensures step.err.Some? ==> r == PersistAsWritten(original, step, update)
    ensures step.status != original && step.err.None? && update(step.status).Some? ==>
      r.err == Some(Aggregate([UpdateFailed(update(step.status).value)]))
  {
    if step.status == original then step
    else
      var effects := step.effects + [UpdateOrderCall(step.status)];
      var errs := (if step.err.Some? then [step.err.value] else []) + UpdateErrors(update(step.status));
      assert step.err.None? ==> errs == UpdateErrors(update(step.status));
      if errs == [] then Step(step.status, effects, None)
      else Step(step.status, effects, Some(Aggregate(errs)))
  }

  /** A full reconciliation: `Sync` followed by the deferred status write. */
  function Reconcile(env: Env, issuer: Result<Issuer, ClientError>, client: Result<AcmeClient, ClientError>,
                     store: ChallengeStore, order: Order): (r: Step)
    ensures r.status == Sync(env, issuer, client, store, order).status
    ensures r.effects == Sync(env, issuer, client, store, order).effects
                         + (if r.status != order.status then [UpdateOrderCall(r.status)] else [])
    ensures (exists e :: e in r.effects && e.UpdateOrderCall?) <==> r.status != order.status
    ensures r.err.None? <==>
      Sync(env, issuer, client, store, order).err.None?
      && (r.status == order.status || store.updateOrder(r.status).None?)
    ensures r.status == order.status ==> r.err == Sync(env, issuer, client, store, order).err
    ensures var s := Sync(env, issuer, client, store, order);
      r.status != order.status && s.err.Some? ==>
        r.err == Some(Aggregate([s.err.value] + UpdateErrors(store.updateOrder(r.status))))
    ensures var s := Sync(env, issuer, client, store, order);
      r.status != order.status && s.err.None? && store.updateOrder(r.status).Some? ==>
        r.err == Some(Aggregate([UpdateFailed(store.updateOrder(r.status).value)]))
  {
    var s := Sync(env, issuer, client, store, order);
    var r := Persist(order.status, s, store.updateOrder);
    assert s.status != order.status ==> r.effects[|r.effects| - 1] == UpdateOrderCall(s.status);
    r
  }

  /** A full reconciliation with the deferred write exactly as the source has
      it. */
  function ReconcileAsWritten(env: Env, issuer: Result<Issuer, ClientError>, client: Result<AcmeClient, ClientError>,
                              store: ChallengeStore, order: Order): (r: Step)
    ensures r.status == Sync(env, issuer, client, store, order).status
    ensures r.effects == Sync(env, issuer, client, store, order).effects
                         + (if r.status != order.status then [UpdateOrderCall(r.status)] else [])
    ensures (exists e :: e in r.effects && e.UpdateOrderCall?) <==> r.status != order.status
    ensures r.err.None? <==> Sync(env, issuer, client, store, order).err.None?
    ensures r.status == order.status ==> r.err == Sync(env, issuer, client, store, order).err
    ensures var s := Sync(env, issuer, client, store, order);
      r.status != order.status && s.err.Some? ==>
        r.err == Some(Aggregate([s.err.value] + UpdateErrors(store.updateOrder(r.status))))
  {
    var s := Sync(env, issuer, client, store, order);
    var r := PersistAsWritten(order.status, s, store.updateOrder);
    assert s.status != order.status ==> r.effects[|r.effects| - 1] == UpdateOrderCall(s.status);
    r
  }

  /** The two write-backs make the same calls and leave the same status; they
      differ only in the error reported. */
  lemma ReconcileVariantsAgreeOnEffects(env: Env, issuer: Result<Issuer, ClientError>, client: Result<AcmeClient, ClientError>,
                                        store: ChallengeStore, order: Order)
    ensures Reconcile(env, issuer, client, store, order).effects == ReconcileAsWritten(env, issuer, client, store, order).effects
    ensures Reconcile(env, issuer, client, store, order).status == ReconcileAsWritten(env, issuer, client, store, order).status
  {
  }

  /** Remote calls followed by at most one write: the write is present exactly
      when asked for, and it is then the last call and the only write. */
  lemma WriteOnlyAtEnd(calls: seq<Effect>, written: bool, status: OrderStatus)
    requires forall e :: e in calls ==> IsRemoteCall(e)
    ensures var all := calls + (if written then [UpdateOrderCall(status)] else []);
      && ((exists e :: e in all && e.UpdateOrderCall?) <==> written)
      && (written ==> all[|all| - 1] == UpdateOrderCall(status))
      && forall i :: 0 <= i < |all| - 1 ==> !all[i].UpdateOrderCall?
  {
    var all := calls + (if written then [UpdateOrderCall(status)] else []);
    assert forall i :: 0 <= i < |calls| ==> all[i] == calls[i] && calls[i] in calls;
    if written {
      assert all[|all| - 1] == UpdateOrderCall(status);
    } else {
      assert all == calls;
    }
  }

  /** The Order is written back exactly when the reconciliation changed its
      status, and the write is then the last call made and the only write. */
  lemma ReconcileWritesIffChanged(env: Env, issuer: Result<Issuer, ClientError>, client: Result<AcmeClient, ClientError>,
                                  store: ChallengeStore, order: Order)
    ensures var r := Reconcile(env, issuer, client, store, order);
      && ((exists e :: e in r.effects && e.UpdateOrderCall?) <==> r.status != order.status)
      && (r.status != order.status ==> r.effects[|r.effects| - 1] == UpdateOrderCall(r.status))
      && forall i :: 0 <= i < |r.effects| - 1 ==> !r.effects[i].UpdateOrderCall?
    ensures var w := ReconcileAsWritten(env, issuer, client, store, order);
      && ((exists e :: e in w.effects && e.UpdateOrderCall?) <==> w.status != order.status)
      && (w.status != order.status ==> w.effects[|w.effects| - 1] == UpdateOrderCall(w.status))
      && forall i :: 0 <= i < |w.effects| - 1 ==> !w.effects[i].UpdateOrderCall?
  {
    var s := Sync(env, issuer, client, store, order);
    WriteOnlyAtEnd(s.effects, s.status != order.status, s.status);
  }

  /** An Order without an ACME order makes exactly one create-order call and
      never finalizes, polls the order, or creates Challenges. */
  lemma UncreatedOrderOnlyCreates(env: Env, issuer: Result<Issuer, ClientError>, client: Result<AcmeClient, ClientError>,
                                  store: ChallengeStore, order: Order)
    requires issuer.Success? && client.Success? && order.status.url == ""
    ensures var r := Sync(env, issuer, client, store, order);
      && |r.effects| > 0 && r.effects[0].CreateOrderCall?
      && forall i :: 1 <= i < |r.effects| ==> r.effects[i].GetAuthorizationCall?
  {
  }

  /** An Order in a final state is left alone: no call, no change, no error. */
  lemma FinalOrderIsFixpoint(env: Env, issuer: Result<Issuer, ClientError>, client: Result<AcmeClient, ClientError>,
                             store: ChallengeStore, order: Order)
    requires issuer.Success? && client.Success? && order.status.url != "" && env.isFinalState(order.status.state)
    ensures Reconcile(env, issuer, client, store, order) == Step(order.status, [], None)
    ensures ReconcileAsWritten(env, issuer, client, store, order) == Step(order.status, [], None)
  {
  }

  /** In the Ready state the order is finalized and then polled; a failed poll
      is reported in preference to a failed finalization, and a failed
      finalization is reported when the poll succeeded. */
  lemma ReadyErrorPrecedence(env: Env, issuer: Result<Issuer, ClientError>, client: Result<AcmeClient, ClientError>,
                             store: ChallengeStore, order: Order)
    requires issuer.Success? && client.Success? && order.status.url != ""
    requires !env.isFinalState(order.status.state) && order.status.state == Ready
    ensures var r := Sync(env, issuer, client, store, order);
      var cl := client.value;
      && r.effects == [FinalizeOrderCall(order.status.finalizeURL, order.spec.csr), GetOrderCall(order.status.url)]
      && (cl.getOrder(order.status.url).Failure? ==> r.err.Some? && r.err.value.StatusSyncFailed?)
      && (cl.getOrder(order.status.url).Success? && cl.finalizeOrder(order.status.finalizeURL, order.spec.csr).Failure? ==>
            r.err.Some? && r.err.value.FinalizeFailed?)
  {
  }
}

=== FILE: wrappers.dfy ===
/** Failure-compatible wrappers used throughout the model: an optional value and
    a value-or-error result, both usable with `:-`. */
module Wrappers {

  datatype Option<+T> = None | Some(value: T)

  datatype Result<+T, +E> = Success(value: T) | Failure(error: E) {

    predicate IsFailure() {
      Failure?
    }

    function PropagateFailure<U>(): Result<U, E>
      requires Failure?
    {
      Failure(error)
    }

    function Extract(): T
      requires Success?
    {
      value
    }

    /** Replaces the error of a failure, keeping a success as it is. */
    function MapFailure<E2>(wrap: E -> E2): Result<T, E2>
    {
      match this
      case Success(v) => Success(v)
      case Failure(e) => Failure(wrap(e))
    }
  }
}
